=== FILE: README.md ===
# ImageScrapper core in Dafny

A model of the bookkeeping at the heart of ImageScrapper, a desktop tool that
drives a browser through an image search, clicks each thumbnail, and saves
the full-size images that pass a filter. The model covers two source files:

- `SearchEngines.py`: the image filter (`isImageValid`), the content-addressed
  file name (`getImageFileName`), the accept / skip-duplicate / download
  decision (`tryDownloadImage`), and the two engine processors
  (`processImageGoogle` and `processImageDuckDuckGo`; only the first is
  wired into the loop);
- `ImageScrapper.py`: the cooperative `_running` flag (`__init__`,
  `terminate`), the scroll / process / load-more loop
  (`_findImagesAndDownload`), and the exception-swallowing `downloadImages`.

The browser, the network and the file system become oracles:

- a HEAD probe `url -> Option<content type>`;
- a download outcome `url -> bool`;
- the SHA-1 hex digest `url -> string`;
- the set of file names already in the save directory;
- the loading-indicator styles at each poll;
- the `src` and label text of the preview images;
- the thumbnail count of every scroll cycle;
- the processor's answer for each thumbnail;
- the poll at which another thread calls `terminate()`;
- the cycle at which the driver raises.

A Python exception becomes a value: `Completion.Raised`, `Scan` status
`Aborted`, `Outcome.ProbeFailed`, `Outcome.FetchFailed` and
`Exit.DriverFault`. The model departs from the source in two more ways. The
browser, network and file system are the oracles above. The loop is wired as
evidently intended, not as written (see below).

Files, one module each:

| file | module | models |
|---|---|---|
| wrappers.dfy | Wrappers | `Option`, `Completion` (a call returns or raises) |
| pytext.dfy | PyText | Python `str.startswith`, `split`, `join`, `replace(pat, "")`, `strip`, `int` |
| validator.dfy | Validator | `isImageValid` |
| filenames.dfy | FileNames | `getImageFileName`, `getStringHash` as a parameter |
| download.dfy | Download | `tryDownloadImage` |
| engines.dfy | Engines | `processImageGoogle`, `processImageDuckDuckGo` |
| scrapper.dfy | Scrapper | `ImageScrapper` and its loop |

Notes on the source's behaviour:

- The resolution that is validated is the one the page displays. The only
  probe is the content-type HEAD request. Nothing reads the real pixel size.
- `results_start` is simply assigned the cycle's thumbnail count. It can
  move backwards when a later page shows fewer thumbnails; that cycle's
  slice is then empty.
- `wd.close()` is not in a `finally`. A driver fault leaves the browser
  open, which is `Run.closed == false`.
- Neither file publishes progress or "finished" events.
- `processImageDuckDuckGo` has no `try`. A link without `href` raises out of
  it. Its download call is commented out, so it never returns True.

The loop as written has wiring slips. The model runs the loop as evidently
intended, with the processor as an oracle, except for the load-more slip:

- `ImageScrapper.py:49` looks up a `"thumbnail_css_selector"` key the Google
  profile lacks. With Google, every cycle the `while` test admits raises a
  `KeyError` there, before any thumbnail is processed.
- `SE_PROCESS_IMAGE` (`ImageScrapper.py:9-11`) has only a `"Google"` entry.
  The engine list in `MainFrame.py:25` also offers `"DuckDuckGo"`, which
  passes the check at `MainFrame.py:298`. With DuckDuckGo, the lookup at
  `ImageScrapper.py:60` raises a `KeyError` at the first thumbnail the loop
  reaches. So these files never call `processImageDuckDuckGo`.
- `ImageScrapper.py:60` passes `img` as an extra argument to a six-parameter
  processor. That `TypeError` would fire at the first processor call, which
  a cycle with an empty slice never makes. With either profile, an earlier
  `KeyError` comes first.
- The engine list in `MainFrame.py:25` also offers Flickr, PicSearch and
  Pinterest. Neither file has a profile for them, so
  `SEARCH_ENGINES[searchEngine]["search_url"]` (`ImageScrapper.py:36`)
  raises a `KeyError` before the browser starts. `downloadImages` swallows
  it.
- `_tryLoadMoreImages` (`ImageScrapper.py:23,25`) looks up
  `"load_more_css_selector"`, which neither engine profile has. The
  `KeyError` is swallowed, so no button is ever clicked. The model keeps
  this slip: `CycleLog.loadMore` records that load-more was attempted, not
  that it clicked.

The `Scrapper` module comment records the same slips. The `process` oracle
answers True or False, so it stands for a processor that never raises, as
`processImageGoogle` does. Nothing in these files clicks a thumbnail. The
only `click` is the load-more script, and `processImageGoogle` receives no
thumbnail. So `process(c, j)` is the processor's answer for whatever preview
is open when thumbnail `j`'s turn comes. The oracle leaves it unconstrained.

## Model

| member | source | states |
|---|---|---|
| Validator.IsImageValid | SearchEngines.py:50-67 | accepted exactly when url and content type are non-empty, a resolution is given, the content type is an exact member of the allow-list, and min <= resolution <= max holds in both components |
| Validator.BoundsInclusive | SearchEngines.py:59-65 | both bounds are inclusive: all four corners of a non-empty [min, max] box are accepted |
| Validator.OutsideBoundsRejected | SearchEngines.py:59-65 | a resolution below min or above max in either component is rejected, whatever the other arguments |
| Validator.ForeignTypeRejected | SearchEngines.py:55-57 | a content type missing from the allow-list is rejected at any resolution, e.g. image/webp against [image/jpeg, image/png] |
| Validator.WiderBoundsKeepValid | SearchEngines.py:59-67 | widening the bounds never turns an accepted image into a rejected one |
| PyText.Split | SearchEngines.py:120 | `s.split(sep)` always has at least one piece; its meaning is stated by the JoinSplit, SplitPiecesFree, SplitAbsent and SplitAfter rows |
| PyText.RemoveAll | SearchEngines.py:48 | `s.replace(pat, "")`; its meaning is stated by the RemoveAllIsJoinSplit and RemoveAllAbsent rows |
| PyText.ParseInt | SearchEngines.py:121 | `int(text)`, with None for ValueError; its meaning is stated by the ParseShow and ParseBlank rows |
| PyText.Find | SearchEngines.py:48 | the position `str.find` reports is an occurrence at or after the start, with none before it; no position means no occurrence at all |
| PyText.JoinSplit | SearchEngines.py:120 | joining the pieces of `s.split(sep)` with `sep` gives back `s` |
| PyText.SplitPiecesFree | SearchEngines.py:120 | no piece of `s.split(sep)` contains `sep` |
| PyText.SplitAbsent | SearchEngines.py:120 | text without the separator splits into itself alone |
| PyText.SplitAfter | SearchEngines.py:120 | if the separator's first character is not in `a`, then `(a + sep + b).split(sep)` is `[a]` followed by `b.split(sep)` |
| PyText.RemoveAllIsJoinSplit | SearchEngines.py:48 | `s.replace(pat, "")` equals `"".join(s.split(pat))` |
| PyText.RemoveAllAbsent | SearchEngines.py:48 | `replace(pat, "")` leaves text without `pat` unchanged |
| PyText.ParseShow | SearchEngines.py:121 | `int(str(n)) == n` for every integer, under the modelled `int` (no digit limit) |
| PyText.ParseBlank | SearchEngines.py:121 | `int` of blank text raises |
| FileNames.FileName | SearchEngines.py:47-48 | `getImageFileName`: digest, dot, extension; its meaning is stated by the ParseFileNameRoundTrip and FileNameCollision rows |
| FileNames.Extension | SearchEngines.py:48 | `contentType.replace("image/", "")`; its meaning is stated by the ImageTypeExtension and OfferedExtensions rows |
| FileNames.ParseFileNameRoundTrip | SearchEngines.py:44-48 | a 40-character digest makes the file name split back into the URL's digest and the extension |
| FileNames.FileNameCollision | SearchEngines.py:44-48 | two file names are equal iff the URL digests are equal and the extensions are equal; equal (url, type) pairs always give the same name |
| FileNames.ImageTypeExtension | SearchEngines.py:48 | `image/<ext>` gives extension `<ext>` when `<ext>` does not itself contain `image/` |
| FileNames.OfferedExtensions | SearchEngines.py:48 | image/jpg, image/jpeg, image/png and image/gif give jpg, jpeg, png and gif |
| Download.TryDownloadImage | SearchEngines.py:69-86 | each outcome has an exact condition: ProbeFailed iff the probe fails; Rejected iff it answers and the image is invalid; Duplicate iff valid and the file name is already in the directory (never fetched); FetchFailed iff valid, new and the download fails; Saved iff valid, new and the download completes; a duplicate or fetched name is the URL's file name |
| Download.SecondAttemptIsDuplicate | SearchEngines.py:73-82 | after a save, retrying the same URL against the updated directory reports Duplicate and downloads nothing |
| Download.AttemptAddsAtMostOne | SearchEngines.py:77-82 | an attempt adds at most one file, only on success, and removes none |
| Engines.Hidden | SearchEngines.py:97-103 | a progress bar is hidden when its `style` attribute is non-empty; its meaning is stated by the WaitForImageLoad row |
| Engines.AllHidden | SearchEngines.py:97-103 | every progress bar is hidden, the condition of the `for`'s `else`; its meaning is stated by the WaitForImageLoad row |
| Engines.WaitForImageLoad | SearchEngines.py:91-103 | polls 1..50 times; stops at the first poll where every indicator is hidden (no indicators included); earlier polls all showed one visible; otherwise gives up after 50 polls |
| Engines.ParseLabel | SearchEngines.py:120-121 | a label's (width, height), or None where Python raises; its meaning is stated by the LabelRoundTrip, LabelExtraPiecesIgnored, LabelWithoutDividerRejected and LabelExample rows |
| Engines.LabelRoundTrip | SearchEngines.py:120-121 | parsing the label "W × H" that shows a resolution gives back that resolution |
| Engines.LabelExtraPiecesIgnored | SearchEngines.py:120-121 | only the first two pieces of the split are read; text after a second divider is ignored |
| Engines.LabelWithoutDividerRejected | SearchEngines.py:120-121 | a label without " × " raises |
| Engines.LabelExample | SearchEngines.py:120-121 | "1024 × 768" parses to (1024, 768) |
| Engines.IsDataUrl | SearchEngines.py:116 | `imgUrl.startswith("data:")`; its meaning is stated by the DataUrlsSkipped, ScanCandidates and ProcessImageGoogle rows |
| Engines.Eligible | SearchEngines.py:114-123 | a candidate that reaches `tryDownloadImage`: it has a `src`, the URL is not a data URL, and its label reads as a resolution; its meaning is stated by the ScanCandidates, ScanComplete and ProcessImageGoogle rows |
| Engines.Faulty | SearchEngines.py:114-121 | a candidate that makes the loop raise: no `src`, or a non-data URL whose label does not read as a resolution; its meaning is stated by the ScanCandidates, ScanStopsAtFault and ScanAbortsAtFirstFault rows |
| Engines.ReadLabels | SearchEngines.py:113-121 | parses every label up front, one per candidate; its meaning is stated by the ProcessImageGoogle, ScanCandidates and LabelRoundTrip rows |
| Engines.ScanCandidates | SearchEngines.py:113-128 | only candidates with a src, a non-data URL and a readable label are tried; each try's outcome is the download attempt on that URL and parsed label; at most the last try saves and only then is the status Downloaded; Aborted means some candidate had no src or an unreadable label; Exhausted means none did |
| Engines.ScanOrdered | SearchEngines.py:113-124 | candidates are tried in increasing order, each at most once |
| Engines.ScanStopsAtFault | SearchEngines.py:113-126 | no candidate at or after one that raises is tried |
| Engines.ScanAbortsAtFirstFault | SearchEngines.py:113-126 | an aborted scan has a candidate that raises with none before it |
| Engines.ScanComplete | SearchEngines.py:113-124 | every eligible candidate before the first one that raises, and not past the saved one, is tried: none is skipped |
| Engines.ScanFromStart | SearchEngines.py:113-124 | a whole-panel scan tries exactly the eligible candidates before the first fault, in increasing order, stopping at the first save |
| Engines.ProcessImageGoogle | SearchEngines.py:89-128 | at most 50 polls; a length mismatch returns False with no attempt; every attempt is tryDownloadImage on an eligible candidate's src and parsed label, in increasing index order, with no candidate raising before it; every eligible candidate before the first fault and not past the saved one is attempted; returns True iff the last attempt saved and no earlier one did |
| Engines.FirstEligibleWins | SearchEngines.py:113-124 | when the first remaining candidate is eligible and accepted, it is the only attempt and the call succeeds |
| Engines.DataUrlsSkipped | SearchEngines.py:116-118 | a panel showing only data: images yields no attempt and no save |
| Engines.ProcessImageDuckDuckGo | SearchEngines.py:131-146 | never returns True; raises exactly when some link has no href |
| Scrapper.NewScrapper | ImageScrapper.py:14-16 | a new scraper is running |
| Scrapper.Terminate | ImageScrapper.py:18-19 | after terminate the flag is False |
| Scrapper.TerminateIdempotent | ImageScrapper.py:18-19 | terminating twice equals terminating once |
| Scrapper.FlagAt | ImageScrapper.py:14-19 | the value of `_running` at a numbered poll; its meaning is stated by the FlagAtIsTerminated and FlagStaysCleared rows |
| Scrapper.FlagAtIsTerminated | ImageScrapper.py:14-19 | a poll reads the scraper as `terminate()` left it when the call is scheduled at or before that poll, and as it was otherwise |
| Scrapper.FlagStaysCleared | ImageScrapper.py:14-19 | once a poll reads False, every later poll reads False |
| Scrapper.SliceLo | ImageScrapper.py:54 | the slice `[start:n]` starts at `start` when 0 <= start <= n, at n (empty) when start >= n, at n + start for -n <= start < 0, and at 0 below -n |
| Scrapper.VisitSlice | ImageScrapper.py:54-63 | thumbnails are processed consecutively from the slice start; the flag was set before each call; every call was made with the count below max; the count grows by one per success; the loop ends at the slice end (count < max), at a False flag, or right after the success that reaches max |
| Scrapper.RecordAt | ImageScrapper.py:45-69 | each cycle of a consistent log started at the poll and count the cycles before it left, its `while` test read True below the max, and it visited its slice as the processor answered; every cycle but the last ran out |
| Scrapper.AppendCycle | ImageScrapper.py:54-69 | appending a cycle that follows a run-out cycle keeps the log consistent and advances the poll and count by that cycle's |
| Scrapper.CountsAreRunningTotals | ImageScrapper.py:43-61 | the count the next `while` test reads is the number of successes so far |
| Scrapper.FlagBeforeEveryCall | ImageScrapper.py:54-60 | the flag test before every processor call of the run read True |
| Scrapper.CallsBelowMax | ImageScrapper.py:45-63 | every processor call of the run was made with `image_count` below the max |
| Scrapper.NeverCancelled | ImageScrapper.py:14-19 | a running scraper that is never terminated has no cycle cut short by the flag |
| Scrapper.PollsCounted | ImageScrapper.py:45-57 | the flag reads of a run are one `while` test per cycle, one test per processor call, and the test that broke off a cancelled last cycle |
| Scrapper.RunCycle | ImageScrapper.py:46-69 | one while-body after a True test below the max: its record visits the slice from the previous cycle's thumbnail count as the processor answers, records load-more exactly when the slice ran out, and keeps count <= max |
| Scrapper.NextCycle | ImageScrapper.py:46-69 | one turn of the `while` loop after a True test below the max: the new cycle's slice starts at the previous cycle's thumbnail count, the log stays consistent and grows by that cycle, and the count stays within the max |
| Scrapper.Verdict | ImageScrapper.py:45-49 | why the loop stops before a cycle: the flag, the count, the end of the pages, or the driver raising; its meaning is stated by the ScrollLoop row |
| Scrapper.ScrollLoop | ImageScrapper.py:45-69 | the `while` loop yields a consistent log; it stops on the flag iff the last test read False, on the count iff it read True with count >= max, at a driver fault iff the driver raises in the next cycle, and otherwise when the pages run out; no cycle at or after the faulting one is run |
| Scrapper.FindImagesAndDownload | ImageScrapper.py:30-70 | the log is consistent (every cycle's poll window, starting count, slice, visits and ending as above); polls are the log's flag reads plus the final test; image_count equals the successes and lies in [0, max(maxImagesCount, 0)]; results_start ends at the last cycle's thumbnail count; each exit reason holds exactly under its condition; no cycle at or after the one where the driver raises is run, and a fault leaves the browser unclosed; a scraper terminated beforehand processes nothing |
| Scrapper.ExhaustedCyclesTile | ImageScrapper.py:54-69 | from offset 0 with a never-shrinking thumbnail list, run-out cycles visit each thumbnail exactly once: each slice starts where the last stopped and together they cover the list |
| Scrapper.ShrunkPageProcessesNothing | ImageScrapper.py:54-69 | a cycle that sees no more thumbnails than the previous one has an empty slice |
| Scrapper.DownloadImages | ImageScrapper.py:72-79 | always returns normally; the loop runs iff the directory was created, starting at offset 0, and its run carries the loop's guarantees: a consistent log, polls, image_count equal to the successes and within the max, the final results_start, each exit reason exactly under its condition, nothing run at or past the faulting cycle, and the closed-iff-no-fault rule |

## Left out

- Selenium: `find_elements_by_css_selector`, `get_attribute`, `click`,
  `execute_script`, `get`, `close`. These are external automation. Their
  results are oracle inputs, and the CSS selector strings are not modelled.
- `webdriver.Chrome()` and `wd.get` failures before the loop. Only a driver
  fault during a cycle's scroll or enumeration is modelled, which is enough
  to show the missing `finally`.
- `requests.head` and `requests.get`, `verify=False`, the User-Agent header,
  file writing and `mkdir`. These are I/O; each is one oracle answer.
  A write that fails after `open` may leave an empty file; that is not modelled.
- Scrapper.DownloadImages: the `mkdir` outcome is a boolean parameter, not
  derived from the file system.
- Download.TryDownloadImage: the HEAD answer is a function of the URL, so two
  probes of one URL always agree. The real server may answer differently over time.
- `time.sleep` with `IMAGE_LOAD_SLEEP_TIME` and `SLEEP_TIME_AFTER_SCROLL`.
  These are wall-clock delays; only the retry bound of 50 is kept.
- SHA-1 itself. `getStringHash` is the `digest` parameter. Only its
  40-character lower-hex shape is assumed where a lemma needs it.
- Threads. Cancellation is a schedule saying before which flag poll
  `terminate()` lands.
- `_tryLoadMoreImages`: the button lookup and click. Both failures are
  swallowed, so the model records only whether load-more was attempted.
- Scrapper.FindImagesAndDownload: the `process` oracle cannot raise. A
  processor that raises out of the loop is not modelled: `processImageDuckDuckGo`
  on a link without `href`, the `SE_PROCESS_IMAGE` lookup for an engine
  other than Google, or the extra `img` argument. Only the driver faults
  during a cycle's scroll or enumeration are modelled.
- Scrapper.FindImagesAndDownload: the source loops until cancelled or full,
  possibly forever. The model runs one cycle per entry of the finite `pages`
  oracle and reports `OutOfPages` when they run out.
- PyText.ParseInt: accepts white space, an optional sign, and ASCII digits.
  Its white space is space, tab, line feed, carriage return, vertical tab and
  form feed. It does not accept the underscores or non-ASCII digits that
  Python's `int` also accepts. It does not strip the separators \x1c-\x1f,
  \x85 or non-ASCII white space, which Python's `strip()` and `int()` treat
  as white space. It has no digit limit. CPython 3.11 and later, and the
  3.7.14 / 3.8.14 / 3.9.14 / 3.10.7 security releases, raise `ValueError`
  in `int(text)` for more than 4300 digits by default. On such a Python, a
  label with a longer number makes `processImageGoogle` return False at once
  where the model treats the label as readable. Which interpreter runs the
  program is not fixed by the source.
- PyText.ParseShow: holds for the modelled `int`. Under the 4300-digit limit
  above, `str(n)` and `int` raise for longer numbers.
- Engines.LabelRoundTrip: holds for the modelled `int`. Under the 4300-digit
  limit, a label showing a width or height longer than 4300 digits raises.
- Engines.WaitForImageLoad: a driver exception during a poll (a stale
  element) is not modelled. In the source it would make the whole call
  return False.
- `print` diagnostics, and the `SEARCH_ENGINES` table apart from the divider
  " × " and the DuckDuckGo link list.
- MainFrame.py. It is the wxPython window: widgets, dialogs, JSON project
  files and thread launch. Its content-type checkboxes supply the example
  extensions in FileNames.OfferedExtensions.
- Progress events. The core never publishes them.

=== FILE: download.dfy ===
/** `tryDownloadImage`: probe the content type, validate, name the file, skip
    duplicates, download. The network and the hash are oracles; the save
    directory is the set of file names already in it. */
module Download {
  import opened Wrappers
  import opened Validator
  import opened FileNames

  /** What the outside world answers during one attempt.
      - contentType(url): the `content-type` header of a HEAD request, or `None`
        when the request raises or the header is missing (a `KeyError`);
      - fetch(url): whether the GET and the file write complete without raising;
      - digest(url): `getStringHash(url)`. */
  datatype Oracles = Oracles(
    contentType: string -> Option<string>,
    fetch: string -> bool,
    digest: string -> string)

  /** How one attempt ends. Only `Saved` makes `tryDownloadImage` return True. */
  datatype Outcome =
    | ProbeFailed               // the HEAD probe raised
    | Rejected                  // `isImageValid` said no
    | Duplicate(name: string)   // the file already exists: no download
    | FetchFailed(name: string) // the download raised
    | Saved(name: string)       // downloaded and written

  /** A GET request was issued during the attempt. */
  predicate Fetched(o: Outcome) {
    o.FetchFailed? || o.Saved?
  }

  /** The save directory after the attempt. */
  function After(saveDir: set<string>, o: Outcome): set<string> {
    if o.Saved? then saveDir + {o.name} else saveDir
  }

  /** `tryDownloadImage(imgUrl, search_engine, img_resolution, min_resolution,
      max_resolution, valid_contentTypes, save_dir)`. The resolution checked is
      the one the page displays; the only probe is the content-type HEAD. */
  function TryDownloadImage(web: Oracles, url: string, res: Resolution,
                            minRes: Resolution, maxRes: Resolution,
                            allowed: seq<string>, saveDir: set<string>): (r: Outcome)
    ensures r.Saved? <==>
      && web.contentType(url).Some?
      && IsImageValid(Some(url), Some(res), minRes, maxRes, web.contentType(url), allowed)
      && FileName(web.digest, url, web.contentType(url).value) !in saveDir
      && web.fetch(url)
    ensures r.Duplicate? || Fetched(r) ==>
      && web.contentType(url).Some?
      && IsImageValid(Some(url), Some(res), minRes, maxRes, web.contentType(url), allowed)
      && r.name == FileName(web.digest, url, web.contentType(url).value)
    ensures Fetched(r) ==> r.name !in saveDir
    ensures r.Duplicate? ==> r.name in saveDir
    ensures r.ProbeFailed? <==> web.contentType(url).None?
    ensures r.Rejected? <==>
      && web.contentType(url).Some?
      && !IsImageValid(Some(url), Some(res), minRes, maxRes, web.contentType(url), allowed)
    ensures r.Duplicate? <==>
      && web.contentType(url).Some?
      && IsImageValid(Some(url), Some(res), minRes, maxRes, web.contentType(url), allowed)
      && FileName(web.digest, url, web.contentType(url).value) in saveDir
    ensures r.FetchFailed? <==>
      && web.contentType(url).Some?
      && IsImageValid(Some(url), Some(res), minRes, maxRes, web.contentType(url), allowed)
      && FileName(web.digest, url, web.contentType(url).value) !in saveDir
      && !web.fetch(url)
  {
    match web.contentType(url)
    case None => ProbeFailed
    case Some(ct) =>
      if !IsImageValid(Some(url), Some(res), minRes, maxRes, Some(ct), allowed) then Rejected
      else
        var name := FileName(web.digest, url, ct);
        if name in saveDir then Duplicate(name)
        else if web.fetch(url) then Saved(name)
        else FetchFailed(name)
  }

  /** Once an image is saved, trying the same URL again against the updated
      directory finds the file and downloads nothing. */
  lemma SecondAttemptIsDuplicate(web: Oracles, url: string, res: Resolution,
                                 minRes: Resolution, maxRes: Resolution,
                                 allowed: seq<string>, saveDir: set<string>)
    requires TryDownloadImage(web, url, res, minRes, maxRes, allowed, saveDir).Saved?
    ensures var first := TryDownloadImage(web, url, res, minRes, maxRes, allowed, saveDir);
            TryDownloadImage(web, url, res, minRes, maxRes, allowed, After(saveDir, first)) == Duplicate(first.name)
  {
  }

  /** An attempt adds at most the one file it names, and only on success. */
  lemma AttemptAddsAtMostOne(web: Oracles, url: string, res: Resolution,
                             minRes: Resolution, maxRes: Resolution,
                             allowed: seq<string>, saveDir: set<string>)
    ensures var r := TryDownloadImage(web, url, res, minRes, maxRes, allowed, saveDir);
            && saveDir <= After(saveDir, r)
            && |After(saveDir, r)| == |saveDir| + (if r.Saved? then 1 else 0)
  {
  }
}

=== FILE: engines.dfy ===
/** The per-engine image processors: `processImageGoogle` and
    `processImageDuckDuckGo`. The browser page is given as data: the style
    attributes the loading indicators show at each poll, and the `src` and
    label text of the full-size images the preview panel shows afterwards. */
module Engines {
  import opened Wrappers
  import opened PyText
  import opened Validator
  import opened Download

  /** `IMAGE_LOAD_RETRIES`: the most times the loading indicator is polled. */
  const ImageLoadRetries: nat := 50

  /** The Google profile's `image_resolution_divider`. */
  const GoogleDivider := " × "

  const DataScheme := "data:"

  // ---------------------------------------------------------------------
  // Waiting for the preview to load

  /** A loading indicator is hidden when its `style` attribute is truthy. */
  predicate Hidden(style: Option<string>) {
    style.Some? && style.value != ""
  }

  predicate AllHidden(bars: seq<Option<string>>) {
    forall i :: 0 <= i < |bars| ==> Hidden(bars[i])
  }

  /** The bounded wait at the top of `processImageGoogle`. `indicators(i)` is
      the list of indicator styles seen at poll `i`. Polling stops at the first
      poll where every indicator is hidden (an empty list included), or after
      `ImageLoadRetries` polls, after which processing goes on regardless. */
  method WaitForImageLoad(indicators: nat -> seq<Option<string>>) returns (polls: nat, loaded: bool)
    ensures 1 <= polls <= ImageLoadRetries
    ensures loaded <==> AllHidden(indicators(polls - 1))
    ensures !loaded ==> polls == ImageLoadRetries
    ensures forall i :: 0 <= i < polls - 1 ==> !AllHidden(indicators(i))
  {
    polls := 0;
    loaded := false;
    while polls < ImageLoadRetries
      invariant polls <= ImageLoadRetries
      invariant !loaded
      invariant forall i :: 0 <= i < polls ==> !AllHidden(indicators(i))
    {
      var bars := indicators(polls);
      polls := polls + 1;
      // the inner `for … else`: look for an indicator that is still visible
      var k := 0;
      while k < |bars| && Hidden(bars[k])
        invariant k <= |bars|
        invariant forall j :: 0 <= j < k ==> Hidden(bars[j])
      {
        k := k + 1;
      }
      if k == |bars| {
        loaded := true;
        break;
      }
    }
  }

  // ---------------------------------------------------------------------
  // Resolution labels such as "1024 × 768"

  /** `label.split(divider)` followed by `int()` on the first two pieces;
      further pieces are ignored. `None` stands for the `IndexError` or
      `ValueError` Python raises. */
  function ParseLabel(text: string): Option<Resolution> {
    var parts := Split(text, GoogleDivider);
    if |parts| < 2 then None
    else
      match (ParseInt(parts[0]), ParseInt(parts[1]))
      case (Some(w), Some(h)) => Some(Resolution(w, h))
      case _ => None
  }

  /** The label Google displays for a resolution. */
  function FormatLabel(res: Resolution): string {
    Show(res.width) + GoogleDivider + Show(res.height)
  }

  lemma NoSpaceInShow(n: int)
    ensures ' ' !in Show(n)
    ensures !Contains(Show(n), GoogleDivider)
  {
    ShowChars(n);
    var s := Show(n);
    forall i | 0 <= i <= |s|
      ensures !OccursAt(s, GoogleDivider, i)
    {
      if i + |GoogleDivider| <= |s| {
        assert s[i..i + |GoogleDivider|][0] == s[i];
      }
    }
  }

  /** Parsing a displayed label gives back the resolution it displays. */
  lemma LabelRoundTrip(res: Resolution)
    ensures ParseLabel(FormatLabel(res)) == Some(res)
  {
    NoSpaceInShow(res.width);
    NoSpaceInShow(res.height);
    SplitAfter(Show(res.width), GoogleDivider, Show(res.height));
    SplitAbsent(Show(res.height), GoogleDivider);
    ParseShow(res.width);
    ParseShow(res.height);
  }

  /** Text after a second divider is never looked at. */
  lemma LabelExtraPiecesIgnored(res: Resolution, extra: string)
    ensures ParseLabel(FormatLabel(res) + GoogleDivider + extra) == Some(res)
  {
    NoSpaceInShow(res.width);
    NoSpaceInShow(res.height);
    var w, h := Show(res.width), Show(res.height);
    assert FormatLabel(res) + GoogleDivider + extra == w + GoogleDivider + (h + GoogleDivider + extra);
    SplitAfter(w, GoogleDivider, h + GoogleDivider + extra);
    SplitAfter(h, GoogleDivider, extra);
    ParseShow(res.width);
    ParseShow(res.height);
  }

  /** A label without the divider cannot be read. */
  lemma LabelWithoutDividerRejected(text: string)
    requires !Contains(text, GoogleDivider)
    ensures ParseLabel(text) == None
  {
    SplitAbsent(text, GoogleDivider);
  }

  lemma LabelExample()
    ensures ParseLabel("1024 × 768") == Some(Resolution(1024, 768))
  {
    LabelRoundTrip(Resolution(1024, 768));
    assert Show(1024) == "1024";
    assert Show(768) == "768";
    assert FormatLabel(Resolution(1024, 768)) == "1024 × 768";
  }

  // ---------------------------------------------------------------------
  // processImageGoogle

  /** The preview panel after the wait: the loading-indicator polls, the `src`
      of every full-size image (`None` when the attribute is missing) and the
      `innerHTML` of every resolution label. */
  datatype GooglePage = GooglePage(
    indicators: nat -> seq<Option<string>>,
    images: seq<Option<string>>,
    labels: seq<string>)

  /** One call of `tryDownloadImage`, for candidate `index`. */
  datatype Attempt = Attempt(index: nat, url: string, outcome: Outcome)

  datatype Status =
    | Mismatch    // image and label lists differ in length
    | Aborted     // a missing `src` or an unreadable label raised
    | Exhausted   // every candidate was looked at, none saved
    | Downloaded  // an image was saved

  datatype Scan = Scan(status: Status, attempts: seq<Attempt>)

  /** `imgUrl.startswith("data:")`: an inline image, which is skipped. */
  predicate IsDataUrl(url: string) {
    StartsWith(url, DataScheme)
  }

  /** What each resolution label reads as: `None` where `int()` or the index
      `resolution[1]` raises. Parsing is pure, so reading all labels up front
      and consulting the result inside the loop behaves like parsing each one
      when the loop reaches it. */
  function ReadLabels(labels: seq<string>): (sizes: seq<Option<Resolution>>)
    ensures |sizes| == |labels|
    ensures forall j :: 0 <= j < |labels| ==> sizes[j] == ParseLabel(labels[j])
  {
    seq(|labels|, j requires 0 <= j < |labels| => ParseLabel(labels[j]))
  }

  /** Candidate `j` is one the source hands to `tryDownloadImage`. */
  predicate Eligible(images: seq<Option<string>>, sizes: seq<Option<Resolution>>, j: int)
    requires |images| == |sizes|
  {
    && 0 <= j < |images|
    && images[j].Some? && !IsDataUrl(images[j].value)
    && sizes[j].Some?
  }

  /** Candidate `j` makes the source raise. */
  predicate Faulty(images: seq<Option<string>>, sizes: seq<Option<Resolution>>, j: int)
    requires |images| == |sizes|
  {
    && 0 <= j < |images|
    && (images[j].None? || (!IsDataUrl(images[j].value) && sizes[j].None?))
  }

  /** No candidate in `[lo, hi)` makes the source raise. */
  predicate NoFaultIn(images: seq<Option<string>>, sizes: seq<Option<Resolution>>, lo: int, hi: int)
    requires |images| == |sizes|
  {
    forall f :: lo <= f < hi ==> !Faulty(images, sizes, f)
  }

  /** The `for actual_image, actual_resolution in zip(...)` loop, from
      candidate `i` on. `attempt(url, res)` is the `tryDownloadImage` call with
      the remaining arguments fixed by the caller. */
  function ScanCandidates(attempt: (string, Resolution) -> Outcome, images: seq<Option<string>>,
                          sizes: seq<Option<Resolution>>, i: nat): (r: Scan)
    requires |images| == |sizes| && i <= |images|
    ensures r.status != Mismatch
    ensures r.status == Downloaded ==> |r.attempts| > 0
    ensures forall k :: 0 <= k < |r.attempts| ==>
      (r.attempts[k].outcome.Saved? <==> r.status == Downloaded && k == |r.attempts| - 1)
    ensures forall k :: 0 <= k < |r.attempts| ==>
      var a := r.attempts[k];
      && i <= a.index
      && Eligible(images, sizes, a.index)
      && images[a.index] == Some(a.url)
      && a.outcome == attempt(a.url, sizes[a.index].value)
    ensures r.status == Exhausted ==> NoFaultIn(images, sizes, i, |images|)
    ensures r.status == Aborted ==> exists j :: i <= j < |images| && Faulty(images, sizes, j)
    decreases |images| - i
  {
    if i == |images| then Scan(Exhausted, [])
    else
      match images[i]
      case None => assert Faulty(images, sizes, i); Scan(Aborted, [])
      case Some(url) =>
        if IsDataUrl(url) then
          ScanCandidates(attempt, images, sizes, i + 1)
        else
          match sizes[i]
          case None => assert Faulty(images, sizes, i); Scan(Aborted, [])
          case Some(res) =>
            var outcome := attempt(url, res);
            if outcome.Saved? then Scan(Downloaded, [Attempt(i, url, outcome)])
            else
              var rest := ScanCandidates(attempt, images, sizes, i + 1);
              Scan(rest.status, [Attempt(i, url, outcome)] + rest.attempts)
  }

  /** One step of the scan at a candidate that does not raise: a data URL is
      passed over; any other candidate is attempted first, and the scan goes
      on past it unless it was saved. */
  lemma ScanStep(attempt: (string, Resolution) -> Outcome, images: seq<Option<string>>, sizes: seq<Option<Resolution>>, i: nat)
    requires |images| == |sizes| && i < |images| && !Faulty(images, sizes, i)
    ensures var r := ScanCandidates(attempt, images, sizes, i);
            var rest := ScanCandidates(attempt, images, sizes, i + 1);
            && (IsDataUrl(images[i].value) ==> r == rest)
            && (!IsDataUrl(images[i].value) ==> |r.attempts| > 0 && r.attempts[0].index == i)
            && (!IsDataUrl(images[i].value) && r.attempts[0].outcome.Saved? ==> |r.attempts| == 1)
            && (!IsDataUrl(images[i].value) && !r.attempts[0].outcome.Saved? ==> r.attempts[1..] == rest.attempts && r.status == rest.status)
  {
    var r := ScanCandidates(attempt, images, sizes, i);
    var rest := ScanCandidates(attempt, images, sizes, i + 1);
    if !IsDataUrl(images[i].value) && !r.attempts[0].outcome.Saved? {
      assert r.attempts == [r.attempts[0]] + rest.attempts;
    }
  }

  /** Candidates are attempted in increasing order, each at most once. */
  lemma {:induction false} ScanOrdered(attempt: (string, Resolution) -> Outcome, images: seq<Option<string>>,
                                       sizes: seq<Option<Resolution>>, i: nat)
    requires |images| == |sizes| && i <= |images|
    ensures var r := ScanCandidates(attempt, images, sizes, i);
            forall k, l :: 0 <= k < l < |r.attempts| ==> r.attempts[k].index < r.attempts[l].index
    decreases |images| - i
  {
    if i < |images| && !Faulty(images, sizes, i) {
      ScanStep(attempt, images, sizes, i);
      ScanOrdered(attempt, images, sizes, i + 1);
      var r := ScanCandidates(attempt, images, sizes, i);
      var rest := ScanCandidates(attempt, images, sizes, i + 1);
      if !IsDataUrl(images[i].value) && !r.attempts[0].outcome.Saved? {
        forall k, l | 0 <= k < l < |r.attempts|
          ensures r.attempts[k].index < r.attempts[l].index
        {
          assert r.attempts[l] == rest.attempts[l - 1];
          if k > 0 {
            assert r.attempts[k] == rest.attempts[k - 1];
          }
        }
      }
    }
  }

  /** Nothing is attempted past a candidate that raises. */
  lemma {:induction false} ScanStopsAtFault(attempt: (string, Resolution) -> Outcome, images: seq<Option<string>>, sizes: seq<Option<Resolution>>, i: nat)
    requires |images| == |sizes| && i <= |images|
    ensures var r := ScanCandidates(attempt, images, sizes, i);
            forall k :: 0 <= k < |r.attempts| ==> NoFaultIn(images, sizes, i, r.attempts[k].index)
    decreases |images| - i
  {
    var r := ScanCandidates(attempt, images, sizes, i);
    if i < |images| && !Faulty(images, sizes, i) {
      ScanStep(attempt, images, sizes, i);
      ScanStopsAtFault(attempt, images, sizes, i + 1);
      var rest := ScanCandidates(attempt, images, sizes, i + 1);
      forall k | 0 <= k < |r.attempts|
        ensures NoFaultIn(images, sizes, i, r.attempts[k].index)
      {
        var idx := r.attempts[k].index;
        if IsDataUrl(images[i].value) {
          assert r.attempts[k] == rest.attempts[k];
          assert NoFaultIn(images, sizes, i + 1, idx);
        } else if k > 0 {
          assert r.attempts[k] == r.attempts[1..][k - 1] == rest.attempts[k - 1];
          assert NoFaultIn(images, sizes, i + 1, idx);
        }
      }
    }
  }

  /** A scan that raised did so at the first candidate that raises. */
  lemma {:induction false} ScanAbortsAtFirstFault(attempt: (string, Resolution) -> Outcome, images: seq<Option<string>>, sizes: seq<Option<Resolution>>, i: nat)
    requires |images| == |sizes| && i <= |images|
    requires ScanCandidates(attempt, images, sizes, i).status == Aborted
    ensures exists f :: i <= f < |images| && Faulty(images, sizes, f) && NoFaultIn(images, sizes, i, f)
    decreases |images| - i
  {
    if Faulty(images, sizes, i) {
      assert NoFaultIn(images, sizes, i, i);
    } else {
      ScanStep(attempt, images, sizes, i);
      ScanAbortsAtFirstFault(attempt, images, sizes, i + 1);
      var f :| i + 1 <= f < |images| && Faulty(images, sizes, f) && NoFaultIn(images, sizes, i + 1, f);
      assert NoFaultIn(images, sizes, i, f);
    }
  }

  /** Attempts dropped from the front keep their positions shifted by one. */
  lemma AttemptsShift(attempts: seq<Attempt>, tail: seq<Attempt>, j: nat)
    requires |attempts| > 0 && attempts[1..] == tail
    ensures |tail| > 0 ==> attempts[|attempts| - 1] == tail[|tail| - 1]
    ensures (exists k :: 0 <= k < |tail| && tail[k].index == j) ==>
            exists k :: 0 <= k < |attempts| && attempts[k].index == j
  {
    if exists k :: 0 <= k < |tail| && tail[k].index == j {
      var k :| 0 <= k < |tail| && tail[k].index == j;
      assert attempts[k + 1] == tail[k];
    }
  }

  /** Every eligible candidate before the first one that raises, and not past
      the one saved, is attempted: none is skipped. */
  lemma {:induction false} ScanComplete(attempt: (string, Resolution) -> Outcome, images: seq<Option<string>>, sizes: seq<Option<Resolution>>, i: nat, j: nat)
    requires |images| == |sizes| && i <= j < |images|
    requires Eligible(images, sizes, j) && NoFaultIn(images, sizes, i, j)
    requires var r := ScanCandidates(attempt, images, sizes, i);
             r.status == Downloaded ==> j <= r.attempts[|r.attempts| - 1].index
    ensures var r := ScanCandidates(attempt, images, sizes, i);
            exists k :: 0 <= k < |r.attempts| && r.attempts[k].index == j
    decreases |images| - i, 1
  {
    var r := ScanCandidates(attempt, images, sizes, i);
    assert !Faulty(images, sizes, i);
    ScanStep(attempt, images, sizes, i);
    if j == i {
      assert r.attempts[0].index == j;
    } else if IsDataUrl(images[i].value) {
      ScanComplete(attempt, images, sizes, i + 1, j);
    } else {
      ScanCompleteTried(attempt, images, sizes, i, j);
    }
  }

  /** `ScanComplete` past a candidate that was attempted. */
  lemma {:induction false} ScanCompleteTried(attempt: (string, Resolution) -> Outcome, images: seq<Option<string>>, sizes: seq<Option<Resolution>>, i: nat, j: nat)
    requires |images| == |sizes| && i < j < |images|
    requires !Faulty(images, sizes, i) && !IsDataUrl(images[i].value)
    requires Eligible(images, sizes, j) && NoFaultIn(images, sizes, i, j)
    requires var r := ScanCandidates(attempt, images, sizes, i);
             r.status == Downloaded ==> j <= r.attempts[|r.attempts| - 1].index
    ensures var r := ScanCandidates(attempt, images, sizes, i);
            exists k :: 0 <= k < |r.attempts| && r.attempts[k].index == j
    decreases |images| - i, 0
  {
    var r := ScanCandidates(attempt, images, sizes, i);
    var rest := ScanCandidates(attempt, images, sizes, i + 1);
    ScanStep(attempt, images, sizes, i);
    AttemptsShift(r.attempts, rest.attempts, j);
    // a saved first attempt would be the last one, at index i < j
    if !r.attempts[0].outcome.Saved? {
      ScanComplete(attempt, images, sizes, i + 1, j);
    }
  }

  /** `processImageGoogle(wd, search_engine, min_resolution, max_resolution,
      valid_contentTypes, saveDir)`. Every exception is caught inside, so the
      call always returns; it is True exactly when one image was saved. The
      attempts are `tryDownloadImage` on exactly the eligible candidates before
      the first one that raises or the first one saved, in order. */
  method ProcessImageGoogle(web: Oracles, page: GooglePage,
                            minRes: Resolution, maxRes: Resolution,
                            allowed: seq<string>, saveDir: set<string>)
    returns (downloaded: bool, polls: nat, attempts: seq<Attempt>)
    ensures 1 <= polls <= ImageLoadRetries
    ensures |page.images| != |page.labels| ==> !downloaded && attempts == []
    ensures downloaded <==> |attempts| > 0 && attempts[|attempts| - 1].outcome.Saved?
    ensures forall k :: 0 <= k < |attempts| - 1 ==> !attempts[k].outcome.Saved?
    ensures |attempts| > 0 ==> |page.images| == |page.labels|
    ensures forall k :: 0 <= k < |attempts| ==>
      var a := attempts[k];
      var sizes := ReadLabels(page.labels);
      && Eligible(page.images, sizes, a.index)
      && NoFaultIn(page.images, sizes, 0, a.index)
      && page.images[a.index] == Some(a.url)
      && !IsDataUrl(a.url)
      && a.outcome == TryDownloadImage(web, a.url, sizes[a.index].value, minRes, maxRes, allowed, saveDir)
    ensures forall k, l :: 0 <= k < l < |attempts| ==> attempts[k].index < attempts[l].index
    ensures |page.images| == |page.labels| ==>
      var sizes := ReadLabels(page.labels);
      forall j :: 0 <= j < |page.images| && Eligible(page.images, sizes, j) && NoFaultIn(page.images, sizes, 0, j)
                  && (downloaded ==> j <= attempts[|attempts| - 1].index) ==>
        exists k :: 0 <= k < |attempts| && attempts[k].index == j
  {
    var loaded;
    polls, loaded := WaitForImageLoad(page.indicators);
    if |page.images| != |page.labels| {
      return false, polls, [];
    }
    var sizes := ReadLabels(page.labels);
    var tryImage := (url: string, res: Resolution) => TryDownloadImage(web, url, res, minRes, maxRes, allowed, saveDir);
    var scan := ScanCandidates(tryImage, page.images, sizes, 0);
    ScanFromStart(tryImage, page.images, sizes);
    downloaded := scan.status == Downloaded;
    attempts := scan.attempts;
  }

  /** A whole-page scan tries exactly the eligible candidates up to the first
      fault, in order, and stops after the first one saved. */
  lemma ScanFromStart(attempt: (string, Resolution) -> Outcome, images: seq<Option<string>>, sizes: seq<Option<Resolution>>)
    requires |images| == |sizes|
    ensures var r := ScanCandidates(attempt, images, sizes, 0);
            forall k :: 0 <= k < |r.attempts| ==> NoFaultIn(images, sizes, 0, r.attempts[k].index)
    ensures var r := ScanCandidates(attempt, images, sizes, 0);
            forall k, l :: 0 <= k < l < |r.attempts| ==> r.attempts[k].index < r.attempts[l].index
    ensures var r := ScanCandidates(attempt, images, sizes, 0);
            forall j :: 0 <= j < |images| && Eligible(images, sizes, j) && NoFaultIn(images, sizes, 0, j)
                        && (r.status == Downloaded ==> j <= r.attempts[|r.attempts| - 1].index) ==>
              exists k :: 0 <= k < |r.attempts| && r.attempts[k].index == j
  {
    var r := ScanCandidates(attempt, images, sizes, 0);
    ScanStopsAtFault(attempt, images, sizes, 0);
    ScanOrdered(attempt, images, sizes, 0);
    forall j | 0 <= j < |images| && Eligible(images, sizes, j) && NoFaultIn(images, sizes, 0, j)
               && (r.status == Downloaded ==> j <= r.attempts[|r.attempts| - 1].index)
      ensures exists k :: 0 <= k < |r.attempts| && r.attempts[k].index == j
    {
      ScanComplete(attempt, images, sizes, 0, j);
    }
  }

  /** When the first remaining candidate is an image link with a readable
      label and it is accepted, that one is saved and nothing else is tried. */
  lemma FirstEligibleWins(attempt: (string, Resolution) -> Outcome, images: seq<Option<string>>, labels: seq<string>, i: nat)
    requires |images| == |labels| && i < |images|
    requires Eligible(images, ReadLabels(labels), i)
    requires attempt(images[i].value, ParseLabel(labels[i]).value).Saved?
    ensures var r := ScanCandidates(attempt, images, ReadLabels(labels), i);
            r.status == Downloaded && |r.attempts| == 1 && r.attempts[0].index == i
  {
  }

  /** Data URLs are passed over without any probe. */
  lemma {:induction false} DataUrlsSkipped(attempt: (string, Resolution) -> Outcome, images: seq<Option<string>>, sizes: seq<Option<Resolution>>, i: nat)
    requires |images| == |sizes| && i <= |images|
    requires forall j :: i <= j < |images| ==> images[j].Some? && IsDataUrl(images[j].value)
    ensures ScanCandidates(attempt, images, sizes, i) == Scan(Exhausted, [])
    decreases |images| - i
  {
    if i < |images| {
      DataUrlsSkipped(attempt, images, sizes, i + 1);
    }
  }

  // ---------------------------------------------------------------------
  // processImageDuckDuckGo

  /** `processImageDuckDuckGo`: walks the image links, skipping data URLs; the
      download call is commented out in the source, so nothing is ever saved.
      There is no `try` here: a link without `href` makes `.startswith` raise
      out of the call. */
  function ProcessImageDuckDuckGo(hrefs: seq<Option<string>>): (r: Completion<bool>)
    ensures r.Normal? ==> !r.value
    ensures r.Raised? <==> exists i :: 0 <= i < |hrefs| && hrefs[i].None?
    decreases |hrefs|
  {
    if |hrefs| == 0 then Normal(false)
    else if hrefs[0].None? then Raised
    else
      var rest := ProcessImageDuckDuckGo(hrefs[1..]);
      assert forall i :: 1 <= i < |hrefs| ==> hrefs[i] == hrefs[1..][i - 1];
      rest
  }
}

=== FILE: filenames.dfy ===
/** `getImageFileName`: the content-addressed name an image is saved under.
    `getStringHash` (the SHA-1 hex digest of FIPS 180-4 over the UTF-8 bytes of
    the URL) is not modelled bit by bit; it enters as a function parameter
    `digest`, which is deterministic by construction. */
module FileNames {
  import opened Wrappers
  import opened PyText

  const ImagePrefix := "image/"

  /** Length of a SHA-1 `hexdigest()`: 20 bytes, two hex characters each. */
  const DigestLength := 40

  predicate IsLowerHex(c: char) {
    '0' <= c <= '9' || 'a' <= c <= 'f'
  }

  /** The shape of `sha1(...).hexdigest()`. */
  predicate IsSha1Hex(d: string) {
    |d| == DigestLength && forall i :: 0 <= i < |d| ==> IsLowerHex(d[i])
  }

  /** `contentType.replace("image/", "")`. */
  function Extension(contentType: string): string {
    RemoveAll(contentType, ImagePrefix)
  }

  /** `getImageFileName(url, contentType)`. */
  function FileName(digest: string -> string, url: string, contentType: string): string {
    digest(url) + "." + Extension(contentType)
  }

  /** Reads a saved file name back into (digest, extension). */
  function ParseFileName(name: string): (r: Option<(string, string)>)
    ensures r.Some? ==> |r.value.0| == DigestLength && name == r.value.0 + "." + r.value.1
  {
    if |name| > DigestLength && name[DigestLength] == '.' then
      Some((name[..DigestLength], name[DigestLength + 1..]))
    else None
  }

  /** A file name records exactly the URL's digest and the extension. */
  lemma ParseFileNameRoundTrip(digest: string -> string, url: string, contentType: string)
    requires IsSha1Hex(digest(url))
    ensures ParseFileName(FileName(digest, url, contentType)) == Some((digest(url), Extension(contentType)))
  {
    var name := FileName(digest, url, contentType);
    assert name[..DigestLength] == digest(url);
    assert name[DigestLength + 1..] == Extension(contentType);
  }

  /** Two images get the same file name exactly when their URLs have the same
      digest and their content types the same extension; so equal
      (url, content type) pairs always collide, and distinct URLs collide only
      through a digest collision. */
  lemma FileNameCollision(digest: string -> string, url1: string, type1: string, url2: string, type2: string)
    requires IsSha1Hex(digest(url1)) && IsSha1Hex(digest(url2))
    ensures FileName(digest, url1, type1) == FileName(digest, url2, type2)
        <==> digest(url1) == digest(url2) && Extension(type1) == Extension(type2)
  {
    if FileName(digest, url1, type1) == FileName(digest, url2, type2) {
      ParseFileNameRoundTrip(digest, url1, type1);
      ParseFileNameRoundTrip(digest, url2, type2);
    }
  }

  /** A content type `image/<ext>` names the file `<digest>.<ext>` as long as
      `<ext>` itself does not contain `image/`. */
  lemma ImageTypeExtension(ext: string)
    requires !Contains(ext, ImagePrefix)
    ensures Extension(ImagePrefix + ext) == ext
  {
    var t := ImagePrefix + ext;
    assert StartsWith(t, ImagePrefix);
    assert t[|ImagePrefix|..] == ext;
    RemoveAllAbsent(ext, ImagePrefix);
  }

  /** The extensions of the content types the user interface offers. */
  lemma OfferedExtensions()
    ensures Extension("image/jpg") == "jpg"
    ensures Extension("image/jpeg") == "jpeg"
    ensures Extension("image/png") == "png"
    ensures Extension("image/gif") == "gif"
  {
    NoPrefixIn("jpg");
    NoPrefixIn("jpeg");
    NoPrefixIn("png");
    NoPrefixIn("gif");
    ImageTypeExtension("jpg");
    ImageTypeExtension("jpeg");
    ImageTypeExtension("png");
    ImageTypeExtension("gif");
  }

  lemma NoPrefixIn(ext: string)
    requires '/' !in ext
    ensures !Contains(ext, ImagePrefix)
  {
    forall i | 0 <= i <= |ext|
      ensures !OccursAt(ext, ImagePrefix, i)
    {
      if i + |ImagePrefix| <= |ext| {
        assert ext[i..i + |ImagePrefix|][5] == ext[i + 5] != '/';
      }
    }
  }
}

=== FILE: pytext.dfy ===
/** The handful of Python `str` operations the scraper relies on, written out
    with Python's semantics: `startswith`, `split(sep)` with a non-empty separator,
    `sep.join(parts)`, `replace(pat, "")`, `strip()` and base-10 `int(text)`. */
module PyText {
  import opened Wrappers

  /** `s.startswith(prefix)`. */
  predicate StartsWith(s: string, prefix: string) {
    prefix <= s
  }

  /** `pat` occurs in `s` starting at position `i`. */
  predicate OccursAt(s: string, pat: string, i: int) {
    0 <= i && i + |pat| <= |s| && s[i..i + |pat|] == pat
  }

  /** `pat in s`. */
  predicate Contains(s: string, pat: string) {
    exists i :: 0 <= i <= |s| && OccursAt(s, pat, i)
  }

  /** `s.find(pat, from)`: the leftmost occurrence of `pat` at or after `from`. */
  function Find(s: string, pat: string, from: nat): (r: Option<nat>)
    requires |pat| > 0 && from <= |s|
    ensures r.Some? ==> from <= r.value && OccursAt(s, pat, r.value)
    ensures r.Some? ==> forall j :: from <= j < r.value ==> !OccursAt(s, pat, j)
    ensures r.None? ==> forall j :: from <= j <= |s| ==> !OccursAt(s, pat, j)
    decreases |s| - from
  {
    if from + |pat| > |s| then None
    else if s[from..from + |pat|] == pat then Some(from)
    else Find(s, pat, from + 1)
  }

  /** `s.split(sep)`: cut at the leftmost occurrence of `sep`, then go on
      after it; the result always has at least one piece. */
  function Split(s: string, sep: string): (parts: seq<string>)
    requires |sep| > 0
    ensures |parts| >= 1
    decreases |s|
  {
    match Find(s, sep, 0)
    case None => [s]
    case Some(i) => [s[..i]] + Split(s[i + |sep|..], sep)
  }

  /** `sep.join(parts)`. */
  function Join(parts: seq<string>, sep: string): string
    decreases |parts|
  {
    if |parts| == 0 then ""
    else if |parts| == 1 then parts[0]
    else parts[0] + sep + Join(parts[1..], sep)
  }

  /** `s.replace(pat, "")`: remove the leftmost occurrence, then go on after
      it; occurrences created by a removal stay. */
  function RemoveAll(s: string, pat: string): string
    requires |pat| > 0
    decreases |s|
  {
    match Find(s, pat, 0)
    case None => s
    case Some(i) => s[..i] + RemoveAll(s[i + |pat|..], pat)
  }

  lemma JoinCons(p: string, rest: seq<string>, sep: string)
    requires |rest| >= 1
    ensures Join([p] + rest, sep) == p + sep + Join(rest, sep)
  {
    assert ([p] + rest)[1..] == rest;
  }

  /** Cutting `s` around an occurrence of `sep` and gluing it back is the identity. */
  lemma CutAround(s: string, sep: string, i: nat)
    requires OccursAt(s, sep, i)
    ensures s[..i] + sep + s[i + |sep|..] == s
  {
    assert s == s[..i] + s[i..i + |sep|] + s[i + |sep|..];
  }

  /** Joining the pieces of a split with the same separator gives back the text. */
  lemma {:induction false} JoinSplit(s: string, sep: string)
    requires |sep| > 0
    ensures Join(Split(s, sep), sep) == s
    decreases |s|
  {
    match Find(s, sep, 0)
    case None =>
    case Some(i) =>
      var tail := s[i + |sep|..];
      var rest := Split(tail, sep);
      assert Split(s, sep) == [s[..i]] + rest;
      JoinSplit(tail, sep);
      JoinCons(s[..i], rest, sep);
      CutAround(s, sep, i);
  }

  /** No piece of a split contains the separator. */
  lemma {:induction false} SplitPiecesFree(s: string, sep: string)
    requires |sep| > 0
    ensures forall k :: 0 <= k < |Split(s, sep)| ==> !Contains(Split(s, sep)[k], sep)
    decreases |s|
  {
    match Find(s, sep, 0)
    case None =>
      NoOccurrenceNotContained(s, sep);
    case Some(i) =>
      var tail := s[i + |sep|..];
      SplitPiecesFree(tail, sep);
      var head := s[..i];
      forall j | 0 <= j <= |head|
        ensures !OccursAt(head, sep, j)
      {
        if j + |sep| <= |head| {
          assert head[j..j + |sep|] == s[j..j + |sep|];
          assert !OccursAt(s, sep, j);
        }
      }
      var parts := [head] + Split(tail, sep);
      assert Split(s, sep) == parts;
      forall k | 0 <= k < |parts|
        ensures !Contains(parts[k], sep)
      {
        if k > 0 {
          assert parts[k] == Split(tail, sep)[k - 1];
        }
      }
  }

  lemma NoOccurrenceNotContained(s: string, pat: string)
    requires |pat| > 0
    requires forall j :: 0 <= j <= |s| ==> !OccursAt(s, pat, j)
    ensures !Contains(s, pat)
  {
  }

  /** A position `find` reports is an occurrence. */
  lemma FindWitnesses(s: string, pat: string)
    requires |pat| > 0
    ensures Find(s, pat, 0).Some? ==> Contains(s, pat)
  {
    var r := Find(s, pat, 0);
    if r.Some? {
      assert OccursAt(s, pat, r.value);
    }
  }

  /** Text with no occurrence of the separator splits into itself alone. */
  lemma SplitAbsent(s: string, sep: string)
    requires |sep| > 0
    requires !Contains(s, sep)
    ensures Split(s, sep) == [s]
  {
    FindWitnesses(s, sep);
  }

  /** When the separator's first character does not appear in `a`, the first
      cut of `a + sep + b` is right after `a`. */
  lemma SplitAfter(a: string, sep: string, b: string)
    requires |sep| > 0
    requires sep[0] !in a
    ensures Split(a + sep + b, sep) == [a] + Split(b, sep)
  {
    var s := a + sep + b;
    assert OccursAt(s, sep, |a|) by {
      assert s[|a|..|a| + |sep|] == sep;
    }
    forall j | 0 <= j < |a|
      ensures !OccursAt(s, sep, j)
    {
      if j + |sep| <= |s| {
        assert s[j..j + |sep|][0] == s[j] == a[j];
      }
    }
    var r := Find(s, sep, 0);
    assert r == Some(|a|);
    assert s[..|a|] == a;
    assert s[|a| + |sep|..] == b;
  }

  /** `s.replace(pat, "")` is `"".join(s.split(pat))`. */
  lemma {:induction false} RemoveAllIsJoinSplit(s: string, pat: string)
    requires |pat| > 0
    ensures RemoveAll(s, pat) == Join(Split(s, pat), "")
    decreases |s|
  {
    match Find(s, pat, 0)
    case None =>
    case Some(i) =>
      var tail := s[i + |pat|..];
      RemoveAllIsJoinSplit(tail, pat);
      JoinCons(s[..i], Split(tail, pat), "");
  }

  /** Text without the pattern is left unchanged by `replace(pat, "")`. */
  lemma RemoveAllAbsent(s: string, pat: string)
    requires |pat| > 0
    requires !Contains(s, pat)
    ensures RemoveAll(s, pat) == s
  {
    RemoveAllIsJoinSplit(s, pat);
    SplitAbsent(s, pat);
  }

  // ---------------------------------------------------------------------
  // int(text), base 10

  /** The white space this model strips: space, tab, line feed, carriage
      return, vertical tab and form feed. Python's `str.strip()` and `int()`
      also strip the separators \x1c-\x1f, \x85 and non-ASCII white space,
      which are not modelled. */
  predicate IsSpace(c: char) {
    c == ' ' || c == '\t' || c == '\n' || c == '\r' || c == '\U{0B}' || c == '\U{0C}'
  }

  function TrimStart(s: string): string
    decreases |s|
  {
    if |s| > 0 && IsSpace(s[0]) then TrimStart(s[1..]) else s
  }

  function TrimEnd(s: string): string
    decreases |s|
  {
    if |s| > 0 && IsSpace(s[|s| - 1]) then TrimEnd(s[..|s| - 1]) else s
  }

  /** `s.strip()`. */
  function Strip(s: string): string {
    TrimEnd(TrimStart(s))
  }

  predicate IsDigit(c: char) {
    '0' <= c <= '9'
  }

  predicate AllDigits(s: string) {
    forall i :: 0 <= i < |s| ==> IsDigit(s[i])
  }

  /** Decimal value of a string of digits, most significant first. */
  function DigitsValue(s: string): nat
    requires AllDigits(s)
    decreases |s|
  {
    if |s| == 0 then 0
    else DigitsValue(s[..|s| - 1]) * 10 + (s[|s| - 1] as int - '0' as int)
  }

  /** `int(text)`: surrounding white space, an optional sign, then one or more
      digits; anything else makes Python raise, which is `None` here. */
  function ParseInt(text: string): (r: Option<int>) {
    var t := Strip(text);
    if |t| > 0 && (t[0] == '-' || t[0] == '+') then
      var ds := t[1..];
      if |ds| > 0 && AllDigits(ds) then
        var v: int := DigitsValue(ds);
        Some(if t[0] == '-' then -v else v)
      else None
    else if |t| > 0 && AllDigits(t) then Some(DigitsValue(t))
    else None
  }

  function DigitChar(d: nat): char
    requires d < 10
  {
    ('0' as int + d) as char
  }

  /** `str(n)` for a natural number. */
  function ShowNat(n: nat): string
    decreases n
  {
    if n < 10 then [DigitChar(n)] else ShowNat(n / 10) + [DigitChar(n % 10)]
  }

  /** `str(n)`. */
  function Show(n: int): string {
    if n < 0 then "-" + ShowNat(-n) else ShowNat(n)
  }

  lemma {:induction false} ShowNatDigits(n: nat)
    ensures |ShowNat(n)| >= 1 && AllDigits(ShowNat(n))
    ensures DigitsValue(ShowNat(n)) == n
    decreases n
  {
    var s := ShowNat(n);
    if n < 10 {
    } else {
      ShowNatDigits(n / 10);
      assert s[..|s| - 1] == ShowNat(n / 10);
    }
  }

  /** Every character of `str(n)` is a digit or the minus sign. */
  lemma ShowChars(n: int)
    ensures |Show(n)| >= 1
    ensures forall i :: 0 <= i < |Show(n)| ==> IsDigit(Show(n)[i]) || Show(n)[i] == '-'
  {
    if n < 0 {
      ShowNatDigits(-n);
    } else {
      ShowNatDigits(n);
    }
  }

  lemma StripUnpadded(s: string)
    requires |s| > 0 && !IsSpace(s[0]) && !IsSpace(s[|s| - 1])
    ensures Strip(s) == s
  {
  }

  lemma ParseNat(n: nat)
    ensures ParseInt(ShowNat(n)) == Some(n)
  {
    ShowNatDigits(n);
    var s := ShowNat(n);
    assert !IsSpace(s[0]) && !IsSpace(s[|s| - 1]);
    StripUnpadded(s);
    assert s[0] != '-' && s[0] != '+';
  }

  lemma ParseNegative(n: nat)
    requires n > 0
    ensures ParseInt("-" + ShowNat(n)) == Some(-(n as int))
  {
    ShowNatDigits(n);
    var s := "-" + ShowNat(n);
    assert s[1..] == ShowNat(n);
    assert !IsSpace(s[0]) && !IsSpace(s[|s| - 1]);
    StripUnpadded(s);
  }

  /** `int(str(n)) == n`. */
  lemma ParseShow(n: int)
    ensures ParseInt(Show(n)) == Some(n)
  {
    if n < 0 {
      ParseNegative(-n);
    } else {
      ParseNat(n);
    }
  }

  /** Blank text is not a number. */
  lemma ParseBlank(text: string)
    requires forall i :: 0 <= i < |text| ==> IsSpace(text[i])
    ensures ParseInt(text) == None
  {
    TrimStartBlank(text);
  }

  lemma {:induction false} TrimStartBlank(s: string)
    requires forall i :: 0 <= i < |s| ==> IsSpace(s[i])
    ensures TrimStart(s) == ""
    decreases |s|
  {
    if |s| > 0 {
      TrimStartBlank(s[1..]);
    }
  }
}

=== FILE: scrapper.dfy ===
/** `ImageScrapper`: the cooperative `_running` flag, the scroll / process /
    load-more loop of `_findImagesAndDownload`, and the `downloadImages`
    wrapper.

    The browser is replaced by oracles:
    - `pages[c]` is `len(thumbnail_results)` in cycle `c`;
    - `process(c, j)` is what the engine's processor returns when thumbnail
      `j`'s turn comes in cycle `c`. Nothing here clicks a thumbnail (the only
      `click` is the load-more script) and `processImageGoogle` takes none, so
      the answer concerns whichever preview is open; it is left unconstrained;
    - the `_running` flag is read at numbered polls: the `while` test and the
      test before each thumbnail each read it once;
    - `fault == Some(c)` makes the driver raise when cycle `c` scrolls or
      enumerates thumbnails.

    The loop is modelled as it is evidently meant to run; as written it has
    these wiring slips:
    - ImageScrapper.py:49 looks up `"thumbnail_css_selector"`, a key the
      Google profile does not have (it keeps its selectors under
      `"selectors"`), so with Google every admitted cycle raises there;
    - `SE_PROCESS_IMAGE` (ImageScrapper.py:9-11) has only a `"Google"` entry,
      although the window also offers `"DuckDuckGo"`; with that engine the
      lookup at ImageScrapper.py:60 raises at the first thumbnail reached, so
      `processImageDuckDuckGo` is never called from here;
    - ImageScrapper.py:60 passes `img` as an extra argument to a
      six-parameter processor, which would raise at the first processor call
      (a cycle with an empty slice makes none);
    - the window also offers Flickr, PicSearch and Pinterest, which have no
      profile, so the `"search_url"` lookup at ImageScrapper.py:36 raises
      before the browser starts;
    - `_tryLoadMoreImages` (ImageScrapper.py:23,25) looks up
      `"load_more_css_selector"`, which neither engine profile has, so the
      lookup raises a `KeyError` that the method swallows and no button is
      ever clicked.
    `downloadImages` swallows whatever the first four raise. They are not
    reproduced here; the last one is: `CycleLog.loadMore` records that
    load-more was attempted, not that it clicked. `process` answers True or
    False, so it stands for a processor that never raises, as
    `processImageGoogle` does (see `Engines.ProcessImageGoogle`). */
module Scrapper {
  import opened Wrappers

  /** max(x, 0) as a natural number. */
  function Max0(x: int): nat
  {
    if x < 0 then 0 else x
  }

  /** The state of an `ImageScrapper` object. */
  datatype ImageScrapper = ImageScrapper(running: bool)

  /** `ImageScrapper()`. */
  function NewScrapper(): (s: ImageScrapper)
    ensures s.running
  {
    ImageScrapper(true)
  }

  /** `terminate()`. */
  function Terminate(s: ImageScrapper): (t: ImageScrapper)
    ensures !t.running
  {
    s.(running := false)
  }

  lemma TerminateIdempotent(s: ImageScrapper)
    ensures Terminate(Terminate(s)) == Terminate(s)
  {
  }

  /** When the other thread calls `terminate()`: never, or just before the
      given poll. */
  datatype Cancel = Never | BeforePoll(poll: nat)

  /** The value of `_running` read at poll `p`: the scraper's own flag, until
      `terminate()` has cleared it. */
  function FlagAt(s: ImageScrapper, cancel: Cancel, p: nat): bool {
    s.running && !(cancel.BeforePoll? && cancel.poll <= p)
  }

  /** Poll `p` reads the scraper as it is after every `terminate()` scheduled
      before it. */
  lemma FlagAtIsTerminated(s: ImageScrapper, cancel: Cancel, p: nat)
    ensures FlagAt(s, cancel, p) == (if cancel.BeforePoll? && cancel.poll <= p then Terminate(s) else s).running
  {
  }

  /** Nothing sets `_running` back to True, so once a poll reads False every
      later poll does too. */
  lemma FlagStaysCleared(s: ImageScrapper, cancel: Cancel, p: nat, q: nat)
    requires p <= q && !FlagAt(s, cancel, p)
    ensures !FlagAt(s, cancel, q)
  {
  }

  /** The first index of the Python slice `xs[start:n]` when `len(xs) == n`. */
  function SliceLo(start: int, n: nat): (lo: nat)
    ensures lo <= n
    ensures 0 <= start <= n ==> lo == start
    ensures start >= n ==> lo == n
    ensures -(n as int) <= start < 0 ==> lo == n + start
    ensures start < -(n as int) ==> lo == 0
  {
    if start < 0 then (if n + start < 0 then 0 else n + start)
    else if start > n then n
    else start
  }

  /** How the inner `for` loop of a cycle ended. */
  datatype Ending =
    | Exhausted   // ran off the end of its slice: the `else` branch runs
    | Cancelled   // `break` because `_running` was False
    | Filled      // `break` because `image_count` reached `maxImagesCount`

  /** Number of successful processor calls. */
  function Hits(visits: seq<bool>): nat
    decreases |visits|
  {
    if |visits| == 0 then 0
    else Hits(visits[..|visits| - 1]) + (if visits[|visits| - 1] then 1 else 0)
  }

  /** Successes only accumulate: a prefix never has more. */
  lemma {:induction false} HitsPrefix(visits: seq<bool>, k: nat)
    requires k <= |visits|
    ensures Hits(visits[..k]) <= Hits(visits)
    decreases |visits|
  {
    if k < |visits| {
      var init := visits[..|visits| - 1];
      assert init[..k] == visits[..k];
      HitsPrefix(init, k);
    } else {
      assert visits[..k] == visits;
    }
  }

  /** The inner `for img in thumbnail_results[from:thumbnails]` loop of cycle
      `cycle`, entered with `count < maxImagesCount`; the flag test before
      thumbnail `from + k` is poll `poll + k`. `visits[k]` is the processor's
      answer for thumbnail `from + k`. */
  method VisitSlice(s: ImageScrapper, cancel: Cancel, cycle: nat, from: nat, thumbnails: nat,
                    process: (nat, nat) -> bool, count: int, maxImagesCount: int, poll: nat)
    returns (visits: seq<bool>, ending: Ending, count': int, poll': nat)
    requires from <= thumbnails
    requires count < maxImagesCount
    ensures from + |visits| <= thumbnails
    ensures forall k :: 0 <= k < |visits| ==> visits[k] == process(cycle, from + k)
    ensures |visits| > 0 ==> FlagAt(s, cancel, poll + |visits| - 1)
    ensures |visits| > 0 ==> count + Hits(visits[..|visits| - 1]) < maxImagesCount
    ensures count' == count + Hits(visits)
    ensures count' <= maxImagesCount
    ensures poll' == poll + |visits| + (if ending == Cancelled then 1 else 0)
    ensures ending == Exhausted ==> from + |visits| == thumbnails
    ensures ending == Cancelled ==> from + |visits| < thumbnails && !FlagAt(s, cancel, poll + |visits|)
    ensures ending == Filled ==> |visits| > 0 && visits[|visits| - 1] && count' == maxImagesCount
    ensures ending != Filled ==> count' < maxImagesCount
  {
    visits := [];
    ending := Exhausted;
    count' := count;
    poll' := poll;
    var j := from;
    while j < thumbnails
      invariant from <= j <= thumbnails
      invariant j == from + |visits|
      invariant poll' == poll + |visits|
      invariant count' == count + Hits(visits)
      invariant count' < maxImagesCount
      invariant forall k :: 0 <= k < |visits| ==> visits[k] == process(cycle, from + k)
      invariant |visits| > 0 ==> FlagAt(s, cancel, poll + |visits| - 1)
    {
      // if thread was terminated
      var running := FlagAt(s, cancel, poll');
      poll' := poll' + 1;
      if !running {
        ending := Cancelled;
        return;
      }
      var ok := process(cycle, j);
      var before := visits;
      visits := visits + [ok];
      assert visits[..|before|] == before;
      forall k | 0 <= k < |visits|
        ensures visits[k] == process(cycle, from + k)
      {
        if k < |before| {
          assert visits[k] == before[k];
        }
      }
      if ok {
        count' := count' + 1;
        if count' >= maxImagesCount {
          ending := Filled;
          return;
        }
      }
      j := j + 1;
    }
  }

  /** The processor's answers for thumbnails `from`, `from + 1`, ...,
      `from + n - 1` of cycle `c`. */
  function Answers(process: (nat, nat) -> bool, c: nat, from: nat, n: nat): seq<bool> {
    seq(n, k requires 0 <= k < n => process(c, from + k))
  }

  /** What one pass of the `while` body did: `poll` is the `while` test that
      admitted it and `count` the `image_count` that test saw. */
  datatype CycleLog = CycleLog(poll: nat, count: int, thumbnails: nat, from: nat,
                               visits: seq<bool>, ending: Ending, loadMore: bool)

  /** The first poll after the cycle: its `while` test, one flag test per
      processed thumbnail, and the test that broke off a cancelled cycle. */
  function PollAfter(e: CycleLog): nat {
    e.poll + 1 + |e.visits| + (if e.ending == Cancelled then 1 else 0)
  }

  function CountAfter(e: CycleLog): int {
    e.count + Hits(e.visits)
  }

  /** The poll of the next `while` test. */
  function NextPoll(log: seq<CycleLog>): nat {
    if |log| == 0 then 0 else PollAfter(log[|log| - 1])
  }

  /** The `image_count` the next `while` test sees. */
  function NextCount(log: seq<CycleLog>): int {
    if |log| == 0 then 0 else CountAfter(log[|log| - 1])
  }

  /** Why `_findImagesAndDownload` stopped. */
  datatype Exit =
    | Stopped      // the `while` test read `_running` as False
    | Reached      // the `while` test found `image_count >= maxImagesCount`
    | OutOfPages   // the page oracle has no further cycle (the source would keep scrolling)
    | DriverFault  // the driver raised; the exception leaves the method

  datatype Run = Run(imageCount: int, resultsStart: int, log: seq<CycleLog>, exit: Exit, polls: nat, closed: bool)

  function TotalHits(log: seq<CycleLog>): nat
    decreases |log|
  {
    if |log| == 0 then 0
    else TotalHits(log[..|log| - 1]) + Hits(log[|log| - 1].visits)
  }

  /** Cycle `c`'s record agrees with the loop: its `while` test read the flag
      set with the count below the max; it saw `pages[c]` thumbnails and
      processed the slice starting at the offset the previous cycle left (or
      the initial offset), calling the processor on consecutive thumbnails,
      each after a flag test that read True and with the count below the max;
      it tried to load more exactly when the slice ran out without a `break`;
      a cancelled cycle's last flag test read False, and a filled one stopped
      right after the success that reached the max. */
  predicate CycleRecord(e: CycleLog, c: nat, s: ImageScrapper, cancel: Cancel, maxImagesCount: int,
                        pages: seq<nat>, resultsStart: int, process: (nat, nat) -> bool)
    requires c < |pages|
  {
    && FlagAt(s, cancel, e.poll) && e.count < maxImagesCount
    && e.thumbnails == pages[c]
    && e.from == SliceLo(if c == 0 then resultsStart else pages[c - 1], pages[c])
    && e.from + |e.visits| <= e.thumbnails
    && e.visits == Answers(process, c, e.from, |e.visits|)
    && (|e.visits| > 0 ==> FlagAt(s, cancel, e.poll + |e.visits|))
    && (|e.visits| > 0 ==> e.count + Hits(e.visits[..|e.visits| - 1]) < maxImagesCount)
    && (e.loadMore <==> e.ending == Exhausted)
    && (e.ending == Exhausted ==> e.from + |e.visits| == e.thumbnails)
    && (e.ending == Cancelled ==> e.from + |e.visits| < e.thumbnails && !FlagAt(s, cancel, e.poll + 1 + |e.visits|))
    && (e.ending == Filled ==> |e.visits| > 0 && e.visits[|e.visits| - 1] && CountAfter(e) == maxImagesCount)
    && (e.ending != Filled ==> CountAfter(e) < maxImagesCount)
  }

  /** Every cycle in the log is recorded faithfully, each starts at the poll
      and count the previous one left (the first at poll 0 with count 0), and
      only the last one may have ended in a `break`. */
  predicate Consistent(log: seq<CycleLog>, s: ImageScrapper, cancel: Cancel, maxImagesCount: int,
                       pages: seq<nat>, resultsStart: int, process: (nat, nat) -> bool)
    decreases |log|
  {
    && |log| <= |pages|
    && (|log| > 0 ==>
         var init, e := log[..|log| - 1], log[|log| - 1];
         && Consistent(init, s, cancel, maxImagesCount, pages, resultsStart, process)
         && CycleRecord(e, |log| - 1, s, cancel, maxImagesCount, pages, resultsStart, process)
         && e.poll == NextPoll(init) && e.count == NextCount(init)
         && (|init| > 0 ==> init[|init| - 1].ending == Exhausted))
  }

  /** What a consistent log says about any one of its cycles. */
  lemma {:induction false} RecordAt(log: seq<CycleLog>, s: ImageScrapper, cancel: Cancel, maxImagesCount: int,
                                    pages: seq<nat>, resultsStart: int, process: (nat, nat) -> bool, c: nat)
    requires Consistent(log, s, cancel, maxImagesCount, pages, resultsStart, process)
    requires c < |log|
    ensures CycleRecord(log[c], c, s, cancel, maxImagesCount, pages, resultsStart, process)
    ensures c < |log| - 1 ==> log[c].ending == Exhausted
    ensures log[c].poll == NextPoll(log[..c]) && log[c].count == NextCount(log[..c])
    decreases |log|
  {
    var init := log[..|log| - 1];
    if c < |init| {
      RecordAt(init, s, cancel, maxImagesCount, pages, resultsStart, process, c);
      assert init[c] == log[c];
      assert init[..c] == log[..c];
    } else {
      assert log[..c] == init;
    }
  }

  /** Appending the next cycle after a cycle that ran out keeps the log
      consistent and adds that cycle's successes to the count. */
  lemma AppendCycle(log: seq<CycleLog>, s: ImageScrapper, cancel: Cancel, maxImagesCount: int,
                    pages: seq<nat>, resultsStart: int, process: (nat, nat) -> bool, entry: CycleLog)
    requires Consistent(log, s, cancel, maxImagesCount, pages, resultsStart, process)
    requires |log| < |pages|
    requires CycleRecord(entry, |log|, s, cancel, maxImagesCount, pages, resultsStart, process)
    requires |log| > 0 ==> log[|log| - 1].ending == Exhausted
    requires entry.poll == NextPoll(log) && entry.count == NextCount(log)
    ensures Consistent(log + [entry], s, cancel, maxImagesCount, pages, resultsStart, process)
    ensures NextPoll(log + [entry]) == PollAfter(entry) && NextCount(log + [entry]) == CountAfter(entry)
  {
    assert (log + [entry])[..|log|] == log;
  }

  /** The count the next `while` test sees is the number of successes so far. */
  lemma {:induction false} CountsAreRunningTotals(log: seq<CycleLog>, s: ImageScrapper, cancel: Cancel, maxImagesCount: int,
                                                  pages: seq<nat>, resultsStart: int, process: (nat, nat) -> bool)
    requires Consistent(log, s, cancel, maxImagesCount, pages, resultsStart, process)
    ensures NextCount(log) == TotalHits(log)
    decreases |log|
  {
    if |log| > 0 {
      CountsAreRunningTotals(log[..|log| - 1], s, cancel, maxImagesCount, pages, resultsStart, process);
    }
  }

  /** The flag test before every processor call of the run read True. */
  lemma FlagBeforeEveryCall(log: seq<CycleLog>, s: ImageScrapper, cancel: Cancel, maxImagesCount: int,
                            pages: seq<nat>, resultsStart: int, process: (nat, nat) -> bool, c: nat, k: nat)
    requires Consistent(log, s, cancel, maxImagesCount, pages, resultsStart, process)
    requires c < |log| && k < |log[c].visits|
    ensures FlagAt(s, cancel, log[c].poll + 1 + k)
  {
    RecordAt(log, s, cancel, maxImagesCount, pages, resultsStart, process, c);
  }

  /** Every processor call of the run was made with `image_count` below the max. */
  lemma CallsBelowMax(log: seq<CycleLog>, s: ImageScrapper, cancel: Cancel, maxImagesCount: int,
                      pages: seq<nat>, resultsStart: int, process: (nat, nat) -> bool, c: nat, k: nat)
    requires Consistent(log, s, cancel, maxImagesCount, pages, resultsStart, process)
    requires c < |log| && k < |log[c].visits|
    ensures log[c].count + Hits(log[c].visits[..k]) < maxImagesCount
  {
    var v := log[c].visits;
    RecordAt(log, s, cancel, maxImagesCount, pages, resultsStart, process, c);
    HitsPrefix(v[..|v| - 1], k);
    assert v[..|v| - 1][..k] == v[..k];
  }

  /** One pass of the `while` body of cycle `c` after its test (poll `poll`)
      read True with the count below the max: process the new slice, run
      load-more when the slice ran out, and report the cycle. */
  method RunCycle(s: ImageScrapper, cancel: Cancel, maxImagesCount: int,
                  pages: seq<nat>, process: (nat, nat) -> bool, resultsStart: int,
                  c: nat, start: int, count: int, poll: nat)
    returns (entry: CycleLog)
    requires c < |pages|
    requires start == if c == 0 then resultsStart else pages[c - 1]
    requires count < maxImagesCount && FlagAt(s, cancel, poll)
    ensures CycleRecord(entry, c, s, cancel, maxImagesCount, pages, resultsStart, process)
    ensures entry.poll == poll && entry.count == count
    ensures entry.thumbnails == pages[c] && count <= CountAfter(entry) <= maxImagesCount
  {
    var n := pages[c];
    var from := SliceLo(start, n);
    var visits, ending, count', poll' := VisitSlice(s, cancel, c, from, n, process, count, maxImagesCount, poll + 1);
    // the `else` branch of the `for` calls `_tryLoadMoreImages`, whose
    // failures are swallowed, so only the attempt is recorded
    entry := CycleLog(poll, count, n, from, visits, ending, ending == Exhausted);
    assert CountAfter(entry) == count';
  }

  /** One turn of the `while` loop once its test has admitted the next cycle:
      the slice starts at the previous cycle's thumbnail count (or the initial
      offset), and the cycle is appended to the log. */
  method NextCycle(s: ImageScrapper, cancel: Cancel, maxImagesCount: int,
                   pages: seq<nat>, process: (nat, nat) -> bool, resultsStart: int,
                   log: seq<CycleLog>)
    returns (log': seq<CycleLog>)
    requires Consistent(log, s, cancel, maxImagesCount, pages, resultsStart, process)
    requires |log| < |pages|
    requires FlagAt(s, cancel, NextPoll(log)) && NextCount(log) < maxImagesCount
    ensures Consistent(log', s, cancel, maxImagesCount, pages, resultsStart, process)
    ensures |log'| == |log| + 1 && log'[..|log|] == log
    ensures NextCount(log) <= NextCount(log') <= maxImagesCount
  {
    var c := |log|;
    var start := if c == 0 then resultsStart else log[c - 1].thumbnails;
    var entry := RunCycle(s, cancel, maxImagesCount, pages, process, resultsStart, c, start, NextCount(log), NextPoll(log));
    AppendCycle(log, s, cancel, maxImagesCount, pages, resultsStart, process, entry);
    log' := log + [entry];
  }

  /** A scraper that is running and never terminated has no cancelled cycle. */
  lemma NeverCancelled(log: seq<CycleLog>, s: ImageScrapper, cancel: Cancel, maxImagesCount: int,
                       pages: seq<nat>, resultsStart: int, process: (nat, nat) -> bool)
    requires Consistent(log, s, cancel, maxImagesCount, pages, resultsStart, process)
    requires s.running && cancel.Never?
    ensures forall c :: 0 <= c < |log| ==> log[c].ending != Cancelled
  {
    forall c | 0 <= c < |log|
      ensures log[c].ending != Cancelled
    {
      RecordAt(log, s, cancel, maxImagesCount, pages, resultsStart, process, c);
    }
  }

  /** Why the loop stops before cycle `c`, whose `while` test is poll `poll`
      and sees `count`: the test itself, the end of the page oracle, or the
      driver raising while it scrolls or enumerates; `None` runs the cycle. */
  function Verdict(s: ImageScrapper, cancel: Cancel, maxImagesCount: int, pages: seq<nat>,
                   fault: Option<nat>, c: nat, count: int, poll: nat): Option<Exit>
  {
    // while self._running and image_count < maxImagesCount
    if !FlagAt(s, cancel, poll) then Some(Stopped)
    else if count >= maxImagesCount then Some(Reached)
    else if c >= |pages| then Some(OutOfPages)
    else if fault == Some(c) then Some(DriverFault)
    else None
  }

  /** The `while` loop of `_findImagesAndDownload`: the log of its cycles and
      why the last `while` test (or the cycle after it) stopped it. */
  method ScrollLoop(s: ImageScrapper, cancel: Cancel, maxImagesCount: int,
                    pages: seq<nat>, process: (nat, nat) -> bool,
                    resultsStart: int, fault: Option<nat>)
    returns (log: seq<CycleLog>, exit: Exit)
    ensures Consistent(log, s, cancel, maxImagesCount, pages, resultsStart, process)
    ensures 0 <= NextCount(log) <= Max0(maxImagesCount)
    ensures exit == Stopped <==> !FlagAt(s, cancel, NextPoll(log))
    ensures exit == Reached <==> FlagAt(s, cancel, NextPoll(log)) && NextCount(log) >= maxImagesCount
    ensures exit == OutOfPages <==>
      FlagAt(s, cancel, NextPoll(log)) && NextCount(log) < maxImagesCount && |log| == |pages|
    ensures exit == DriverFault <==>
      FlagAt(s, cancel, NextPoll(log)) && NextCount(log) < maxImagesCount && |log| < |pages| && fault == Some(|log|)
    ensures !s.running || maxImagesCount <= 0 ==> log == []
    ensures fault.Some? ==> |log| <= fault.value
  {
    log := [];
    while Verdict(s, cancel, maxImagesCount, pages, fault, |log|, NextCount(log), NextPoll(log)).None?
      invariant Consistent(log, s, cancel, maxImagesCount, pages, resultsStart, process)
      invariant 0 <= NextCount(log) <= Max0(maxImagesCount)
      invariant !s.running || maxImagesCount <= 0 ==> log == []
      invariant fault.Some? ==> |log| <= fault.value
      decreases |pages| - |log|
    {
      assert fault.Some? ==> |log| < fault.value;
      log := NextCycle(s, cancel, maxImagesCount, pages, process, resultsStart, log);
    }
    exit := Verdict(s, cancel, maxImagesCount, pages, fault, |log|, NextCount(log), NextPoll(log)).value;
  }

  /** `_findImagesAndDownload(..., maxImagesCount, ..., results_start)`. */
  method FindImagesAndDownload(s: ImageScrapper, cancel: Cancel, maxImagesCount: int,
                               pages: seq<nat>, process: (nat, nat) -> bool,
                               resultsStart: int, fault: Option<nat>)
    returns (run: Run)
    ensures Consistent(run.log, s, cancel, maxImagesCount, pages, resultsStart, process)
    ensures run.polls == NextPoll(run.log) + 1
    ensures run.imageCount == TotalHits(run.log) && run.imageCount == NextCount(run.log)
    ensures 0 <= run.imageCount <= Max0(maxImagesCount)
    ensures run.resultsStart == if |run.log| == 0 then resultsStart else pages[|run.log| - 1]
    ensures run.exit == Stopped <==> !FlagAt(s, cancel, NextPoll(run.log))
    ensures run.exit == Reached <==> FlagAt(s, cancel, NextPoll(run.log)) && run.imageCount >= maxImagesCount
    ensures run.exit == OutOfPages <==>
      FlagAt(s, cancel, NextPoll(run.log)) && run.imageCount < maxImagesCount && |run.log| == |pages|
    ensures run.exit == DriverFault <==>
      FlagAt(s, cancel, NextPoll(run.log)) && run.imageCount < maxImagesCount && |run.log| < |pages|
      && fault == Some(|run.log|)
    ensures |run.log| > 0 && run.log[|run.log| - 1].ending == Cancelled ==> run.exit == Stopped
    ensures |run.log| > 0 && run.log[|run.log| - 1].ending == Filled ==> run.exit != OutOfPages && run.exit != DriverFault
    ensures run.closed <==> run.exit != DriverFault
    ensures !s.running ==> run.log == [] && run.exit == Stopped
    ensures s.running && cancel.Never? ==> run.exit != Stopped
    ensures s.running && cancel.Never? ==> forall c :: 0 <= c < |run.log| ==> run.log[c].ending != Cancelled
    ensures maxImagesCount <= 0 ==> run.log == [] && run.imageCount == 0
    ensures fault.Some? ==> |run.log| <= fault.value
  {
    var log, exit := ScrollLoop(s, cancel, maxImagesCount, pages, process, resultsStart, fault);
    CountsAreRunningTotals(log, s, cancel, maxImagesCount, pages, resultsStart, process);
    var start := resultsStart;
    if |log| > 0 {
      var last := log[|log| - 1];
      start := last.thumbnails;
      if last.ending == Cancelled {
        FlagStaysCleared(s, cancel, last.poll + 1 + |last.visits|, NextPoll(log));
      }
    }
    if s.running && cancel.Never? {
      NeverCancelled(log, s, cancel, maxImagesCount, pages, resultsStart, process);
    }
    // `wd.close()` is not in a `finally`, so a fault leaves the browser open
    run := Run(NextCount(log), start, log, exit, NextPoll(log) + 1, exit != DriverFault);
  }

  /** The polls of a run are its `while` tests, one flag test per processor
      call, and the test that broke off a cancelled last cycle. */
  lemma {:induction false} PollsCounted(log: seq<CycleLog>, s: ImageScrapper, cancel: Cancel, maxImagesCount: int,
                                        pages: seq<nat>, resultsStart: int, process: (nat, nat) -> bool)
    requires Consistent(log, s, cancel, maxImagesCount, pages, resultsStart, process)
    ensures NextPoll(log) == |log| + TotalVisits(log) + (if |log| > 0 && log[|log| - 1].ending == Cancelled then 1 else 0)
    decreases |log|
  {
    if |log| > 1 {
      var init := log[..|log| - 1];
      assert forall c :: 0 <= c < |init| ==> init[c] == log[c];
      PollsCounted(init, s, cancel, maxImagesCount, pages, resultsStart, process);
    }
  }

  /** Number of processor calls over a whole log. */
  function TotalVisits(log: seq<CycleLog>): nat
    decreases |log|
  {
    if |log| == 0 then 0
    else TotalVisits(log[..|log| - 1]) + |log[|log| - 1].visits|
  }

  /** With a thumbnail list that never shrinks, a run started at offset 0
      whose cycles all ran out visits every thumbnail exactly once: each slice
      starts where the previous one stopped, and together they cover the
      whole list. */
  lemma {:induction false} ExhaustedCyclesTile(log: seq<CycleLog>, s: ImageScrapper, cancel: Cancel, maxImagesCount: int,
                                               pages: seq<nat>, process: (nat, nat) -> bool)
    requires Consistent(log, s, cancel, maxImagesCount, pages, 0, process)
    requires |log| > 0
    requires forall c :: 0 <= c < |log| ==> log[c].ending == Exhausted
    requires forall c :: 0 < c < |log| ==> pages[c - 1] <= pages[c]
    ensures log[0].from == 0
    ensures forall c :: 0 < c < |log| ==> log[c].from == log[c - 1].from + |log[c - 1].visits|
    ensures TotalVisits(log) == pages[|log| - 1]
    decreases |log|
  {
    var last := log[|log| - 1];
    if |log| > 1 {
      var init := log[..|log| - 1];
      assert forall c :: 0 <= c < |init| ==> init[c] == log[c];
      ExhaustedCyclesTile(init, s, cancel, maxImagesCount, pages, process);
      assert last.from == pages[|log| - 2];
    }
  }

  /** When a later cycle sees no more thumbnails than the previous one, its
      slice is empty and the processor is not called. */
  lemma ShrunkPageProcessesNothing(log: seq<CycleLog>, s: ImageScrapper, cancel: Cancel, maxImagesCount: int,
                                   pages: seq<nat>, resultsStart: int, process: (nat, nat) -> bool, c: nat)
    requires Consistent(log, s, cancel, maxImagesCount, pages, resultsStart, process)
    requires 0 < c < |log| && pages[c] <= pages[c - 1]
    ensures log[c].from == pages[c] && log[c].visits == []
  {
    RecordAt(log, s, cancel, maxImagesCount, pages, resultsStart, process, c);
  }

  /** The outcome of `downloadImages`: whether the save directory could be
      created, and the loop run if it was started. */
  datatype Report = Report(dirCreated: bool, run: Option<Run>)

  /** `downloadImages(...)`: create the save directory (`mkdirOk` says whether
      `mkdir` succeeds), then run the loop from offset 0; every exception is
      caught and printed, so the call always returns. */
  method DownloadImages(s: ImageScrapper, cancel: Cancel, mkdirOk: bool, maxImagesCount: int,
                        pages: seq<nat>, process: (nat, nat) -> bool, fault: Option<nat>)
    returns (r: Completion<Report>)
    ensures r.Normal?
    ensures r.value.dirCreated == mkdirOk
    ensures r.value.run.Some? <==> mkdirOk
    ensures r.value.run.Some? ==>
      var run := r.value.run.value;
      && 0 <= run.imageCount <= Max0(maxImagesCount)
      && (run.closed <==> run.exit != DriverFault)
      && Consistent(run.log, s, cancel, maxImagesCount, pages, 0, process)
      && run.polls == NextPoll(run.log) + 1
      && run.imageCount == NextCount(run.log)
      && run.resultsStart == (if |run.log| == 0 then 0 else pages[|run.log| - 1])
      && (run.exit == Stopped <==> !FlagAt(s, cancel, NextPoll(run.log)))
      && (run.exit == Reached <==> FlagAt(s, cancel, NextPoll(run.log)) && run.imageCount >= maxImagesCount)
      && (run.exit == OutOfPages <==>
            FlagAt(s, cancel, NextPoll(run.log)) && run.imageCount < maxImagesCount && |run.log| == |pages|)
      && (run.exit == DriverFault <==>
            FlagAt(s, cancel, NextPoll(run.log)) && run.imageCount < maxImagesCount && |run.log| < |pages|
            && fault == Some(|run.log|))
      && (fault.Some? ==> |run.log| <= fault.value)
  {
    if !mkdirOk {
      return Normal(Report(false, None));
    }
    var run := FindImagesAndDownload(s, cancel, maxImagesCount, pages, process, 0, fault);
    return Normal(Report(true, Some(run)));
  }
}

=== FILE: validator.dfy ===
/** `isImageValid`: the pure acceptance test applied to every candidate image. */
module Validator {
  import opened Wrappers

  /** A (width, height) pair; the source passes Python lists and tuples of ints. */
  datatype Resolution = Resolution(width: int, height: int)

  /** Component-wise order on resolutions. */
  predicate AtMost(a: Resolution, b: Resolution) {
    a.width <= b.width && a.height <= b.height
  }

  /** Python truthiness of an optional string: neither `None` nor `""`. */
  predicate Given(x: Option<string>) {
    x.Some? && x.value != ""
  }

  /** `isImageValid(img_url, img_resolution, min_resolution, max_resolution,
      img_contentType, valid_contentTypes)`. Arguments keep the source's order. */
  function IsImageValid(url: Option<string>, res: Option<Resolution>,
                        minRes: Resolution, maxRes: Resolution,
                        contentType: Option<string>, allowed: seq<string>): (ok: bool)
    ensures ok <==>
      && Given(url) && Given(contentType) && res.Some?
      && contentType.value in allowed
      && AtMost(minRes, res.value) && AtMost(res.value, maxRes)
  {
    if !Given(url) || !Given(contentType) || res.None? then false
    else if contentType.value !in allowed then false
    else if res.value.width < minRes.width || res.value.height < minRes.height then false
    else if res.value.width > maxRes.width || res.value.height > maxRes.height then false
    else true
  }

  /** Both bounds are inclusive: the corners of a non-empty box are accepted. */
  lemma BoundsInclusive(url: string, minRes: Resolution, maxRes: Resolution,
                        contentType: string, allowed: seq<string>)
    requires url != "" && contentType != "" && contentType in allowed
    requires AtMost(minRes, maxRes)
    ensures IsImageValid(Some(url), Some(minRes), minRes, maxRes, Some(contentType), allowed)
    ensures IsImageValid(Some(url), Some(maxRes), minRes, maxRes, Some(contentType), allowed)
    ensures IsImageValid(Some(url), Some(Resolution(minRes.width, maxRes.height)), minRes, maxRes, Some(contentType), allowed)
    ensures IsImageValid(Some(url), Some(Resolution(maxRes.width, minRes.height)), minRes, maxRes, Some(contentType), allowed)
  {
  }

  /** One pixel past any bound in any direction is rejected. */
  lemma OutsideBoundsRejected(url: Option<string>, res: Resolution, minRes: Resolution, maxRes: Resolution,
                              contentType: Option<string>, allowed: seq<string>)
    requires res.width < minRes.width || res.height < minRes.height
          || res.width > maxRes.width || res.height > maxRes.height
    ensures !IsImageValid(url, Some(res), minRes, maxRes, contentType, allowed)
  {
  }

  /** A content type outside the allow-list is rejected whatever the resolution;
      for instance `image/webp` against `[image/jpeg, image/png]`. */
  lemma ForeignTypeRejected(url: Option<string>, res: Option<Resolution>,
                            minRes: Resolution, maxRes: Resolution, contentType: string, allowed: seq<string>)
    requires contentType !in allowed
    ensures !IsImageValid(url, res, minRes, maxRes, Some(contentType), allowed)
    ensures !IsImageValid(url, res, minRes, maxRes, Some("image/webp"), ["image/jpeg", "image/png"])
  {
  }

  /** Widening the bounds never turns an accepted image into a rejected one. */
  lemma WiderBoundsKeepValid(url: Option<string>, res: Option<Resolution>,
                             minRes: Resolution, maxRes: Resolution,
                             minRes': Resolution, maxRes': Resolution,
                             contentType: Option<string>, allowed: seq<string>)
    requires AtMost(minRes', minRes) && AtMost(maxRes, maxRes')
    requires IsImageValid(url, res, minRes, maxRes, contentType, allowed)
    ensures IsImageValid(url, res, minRes', maxRes', contentType, allowed)
  {
  }
}

=== FILE: wrappers.dfy ===
/** Small value wrappers shared by the model.
- Option<T>: a Python value that may be None.
- Completion<T>: how a Python call ends, either by returning a value or by raising. */
module Wrappers {

  datatype Option<+T> = None | Some(value: T)

  datatype Completion<+T> = Normal(value: T) | Raised

}
